=== FILE: README.md ===
# Job/Pod reconciliation controller — Dafny model

This project models the decision logic of the IBM cloud-native-patterns Job
controller. The controller watches a custom `Job` resource (image, arguments,
desired pod count, state) and the `Pod`s it spawns. It drives each Job through
the states UNDEFINED → POD_CREATION → READY until the Job's pods are all there.

Threads, queues and the cluster client are left out. Each piece becomes a pure
function or a short method over immutable values:

- **Conductor** (`JobConductor`): one change notification is a step over the
  registry of known Job names, the Job store and the Pod store. The step
  correlates the notification to its owning Job and maintains the registry. It
  runs the state machine as an explicit "evaluate this stage, then the next"
  function (`ProcessFrom`), which replaces the Java `switch` fall-through. It
  returns the new registry, the `updateState` calls it issued and an outcome:
  `Done`, `NotReady` (the retryable `OperationInProgressException`) or
  `CommandError` (the coordinator's `IllegalArgumentException`). `updateState`
  is a parameter `coord(job, state)`: true means the call returned normally,
  false means it raised. `Run` folds the step over a sequence of deliveries.
  Each delivery carries its own store snapshots and its own `coord`, because
  the coordinator's answer depends on the cluster at the time of the call.
  `Run` absorbs `NotReady` and stops at the first error.
- **Controller** (`JobController`): the Job listener. A new Job is patched to
  POD_CREATION. A Job entering POD_CREATION gets `desired − |pods|` pods added
  or, when that is negative, its last pods deleted. This uses Java `int`
  arithmetic and the same index bounds.
- **Coordinator** (`JobCoordinator`): the update-state command (`run`, `check`),
  the mapping of statuses to success or error, and `updateState`.
- **Factories and data** (`JobFactory`, `PodFactory`, `JobSpecs`,
  `CommandStatus`, `Commons`, `Resources`): the state-only patch, the pod
  payload and its unique name, the spec constructors, the status enum, and
  the label and API-version constants.

The model keeps these behaviours of the code exactly as written:

- The POD_CREATION check compares `desired` with the size of the whole Pod
  store (`podStore::size`), not with the number of pods labelled with the Job. `PodCreationCountsEveryPod`
  shows the consequence: a Job whose own pods already number `desired` stays
  not ready while another Job's pod is stored.
- When scaling down, the pods deleted are the last `−delta` pods in the order
  the Pod store lists them.
- The state machine runs on the notification's own snapshot. After a forced
  reset to POD_CREATION, the Job is therefore still seen in its old state
  (`ResetSeesOldSnapshot`).
- The UNDEFINED stage only advances when the triggering resource is a Job
  whose snapshot reads POD_CREATION. For the Job's own notification that
  never happens (`UndefinedNeverAdvances`).

`EJobState`, `Job`, `JobStore`, `PodStore` and `ObjectUtils` are not modelled
from their code. The three-state enum UNDEFINED/POD_CREATION/READY is assumed.
The stores are maps keyed by name. `com.ibm.cnp.sync.Coordinator` belongs to a
separate library and is not modelled. Its `apply` is taken to be `run`
followed, on `Wait`, by one `check` against a supplied next observation.

## Model

| member | source | states |
|---|---|---|
| Commons.Group | src/main/java/com/ibm/cnp/samples/ICustomResourceCommons.java:23-25 | a group name is the API group, then '/', then the given name, at fixed positions |
| Commons.GroupInjective | src/main/java/com/ibm/cnp/samples/ICustomResourceCommons.java:23-25 | two names give the same group name exactly when they are equal |
| Commons.ConstantValues | src/main/java/com/ibm/cnp/samples/ICustomResourceCommons.java:20-32 | the API version is "cnp.ibm.com/v1", the job label key "cnp.ibm.com/job", the app label "app" → "cnp" |
| Commons.LabelKeysDistinct | src/main/java/com/ibm/cnp/samples/ICustomResourceCommons.java:29-32 | the app and job label keys differ, so a pod's label map keeps both |
| JobSpecs.DefaultSpec | src/main/java/com/ibm/cnp/samples/job/JobSpec.java:34-37 | a default spec is UNDEFINED with desired 0, and image and args are unset |
| JobSpecs.CopySpec | src/main/java/com/ibm/cnp/samples/job/JobSpec.java:39-44 | the copy is only defined for a spec with non-null args, and then equals the original in state, desired, image and args (same elements, same order) |
| CommandStatus.IsUnknown | src/main/java/com/ibm/cnp/samples/job/JobCommandStatus.java:12-15 | true for Unknown and false for each of the other four statuses |
| CommandStatus.AllStatusesComplete | src/main/java/com/ibm/cnp/samples/job/JobCommandStatus.java:5-10 | every status is one of exactly five values |
| CommandStatus.ExactlyOneUnknown | src/main/java/com/ibm/cnp/samples/job/JobCommandStatus.java:5-15 | exactly one status value is unknown |
| JobFactory.JobCrdNameValue | src/main/java/com/ibm/cnp/samples/job/JobFactory.java:32-33 | the CRD name is "cnpjobs.cnp.ibm.com" |
| JobFactory.Update | src/main/java/com/ibm/cnp/samples/job/JobFactory.java:65-83 | a patch exists exactly when the deep copy succeeds; it targets the Job's own namespace and name; its payload has the requested state and the Job's metadata, desired, image and args |
| JobFactory.UpdateOnlyChangesState | src/main/java/com/ibm/cnp/samples/job/JobFactory.java:69-73 | putting the old state back into the payload gives the original Job; the payload equals the Job exactly when the requested state is the current one |
| PodFactory.IsUnique | src/main/java/com/ibm/cnp/samples/pod/PodFactory.java:51-53 | a name is unique exactly when no stored pod carries it as its name |
| PodFactory.GetUniquePodName | src/main/java/com/ibm/cnp/samples/pod/PodFactory.java:55-62 | the result is the first candidate "jobName-suffix" that is unique in the store; there is none exactly when every supplied suffix collides |
| PodFactory.BuildPod | src/main/java/com/ibm/cnp/samples/pod/PodFactory.java:72-103 | the pod is in the Job's namespace and has exactly the two labels app → cnp and job-label → Job name. It has one owner reference (API version, kind Job, Job name and uid, controller, block-owner-deletion) and one "main" container with the Job's image and args. Its restart policy is Never |
| PodFactory.Add | src/main/java/com/ibm/cnp/samples/pod/PodFactory.java:64-114 | the created pod is exactly the built pod for the first unique candidate "jobName-suffix", sent to and living in the Job's namespace. It carries the Job's label and is controlled by the Job. Nothing is created exactly when no suffix yields a unique name |
| JobCoordinator.NewCommand | src/main/java/com/ibm/cnp/samples/job/JobCoordinator.java:41-45 | a fresh command targets the Job's name and the given state, with status Unknown |
| JobCoordinator.Run | src/main/java/com/ibm/cnp/samples/job/JobCoordinator.java:47-70 | a missing Job gives JobNotFound and Remove with no patch. A Job already in the target state gives NoChangeNeeded and Remove with no patch. Otherwise the result is Wait, the status is unchanged and one patch to the target state is issued (when the copy succeeds) |
| JobCoordinator.Check | src/main/java/com/ibm/cnp/samples/job/JobCoordinator.java:72-77 | converged exactly when the observed Job is in the target state; the status is then Success, otherwise Failure |
| JobCoordinator.ProcessStatus | src/main/java/com/ibm/cnp/samples/job/JobCoordinator.java:81-93 | quiet success exactly for Success and NoChangeNeeded; Failure, JobNotFound and Unknown each raise their own error |
| JobCoordinator.Apply | src/main/java/com/ibm/cnp/samples/job/JobCoordinator.java:96-99 | the final status is never Unknown. Exactly one patch is issued when the Job is stored, is not yet in the target state and its copy succeeded (the copy is skipped when empty, JobFactory.java:69); otherwise none. JobNotFound means the Job is missing and NoChangeNeeded means it was already in the target state. Success means a real transition whose observation reached the target |
| JobCoordinator.UpdateState | src/main/java/com/ibm/cnp/samples/job/JobCoordinator.java:95-100 | no error exactly when the Job is stored and is or becomes the target state; a missing Job raises "not found" with no patch; "invalid state" never surfaces, so a stored Job can fail only with "operation failed"; exactly one patch, to the target state, when the Job is stored, differs from the target and was copied, otherwise none |
| JobCoordinator.UpdateStateIdempotent | src/main/java/com/ibm/cnp/samples/job/JobCoordinator.java:52-64 | asking for the stored Job's current state issues no patch and succeeds |
| JobCoordinator.UpdateStateTransition | src/main/java/com/ibm/cnp/samples/job/JobCoordinator.java:65-77 | when the deep copy succeeds, a real transition issues exactly one patch of the stored Job with the new state, and succeeds exactly when the observation reached it; otherwise it fails with "operation failed" |
| JobController.Delta | src/main/java/com/ibm/cnp/samples/job/JobController.java:78 | for every desired and count: when desired − count fits in an int the delta is exactly that; when it falls below the smallest int it wraps to desired − count + 2^32 |
| JobController.DeltaWrapsForNegativeDesired | src/main/java/com/ibm/cnp/samples/job/JobController.java:78 | whenever desired − count is below the smallest int, the delta wraps to desired − count + 2^32, which is positive |
| JobController.OnModification | src/main/java/com/ibm/cnp/samples/job/JobController.java:59-93 | nothing is issued unless the state changed into POD_CREATION. A non-negative delta issues exactly delta adds of the Job. A negative delta with desired ≥ 0 issues deletes of pods[desired..] in order, and with desired < 0 fails before issuing anything |
| JobController.ModificationConserves | src/main/java/com/ibm/cnp/samples/job/JobController.java:78-87 | after a successful reaction into POD_CREATION with desired ≥ 0, pods + adds − deletes = desired |
| JobController.WrappedDeltaAddsPods | src/main/java/com/ibm/cnp/samples/job/JobController.java:78-86 | a desired so negative that the subtraction wraps makes the reaction succeed and add desired − count + 2^32 pods, with no deletes |
| JobController.DeletionsDistinct | src/main/java/com/ibm/cnp/samples/job/JobController.java:81-83 | deletions of a run of distinct pods are pairwise distinct |
| JobController.OnAddition | src/main/java/com/ibm/cnp/samples/job/JobController.java:53-56 | a new Job gets exactly one patch of itself to POD_CREATION (none when the copy fails) |
| JobController.OnEvent | src/main/java/com/ibm/cnp/samples/job/JobController.java:53-98 | a deletion issues nothing, an addition issues only its patch, a modification reacts exactly as `OnModification` states, and pod adds or deletes happen only on a modification into POD_CREATION |
| JobConductor.GetJobForResource | src/main/java/com/ibm/cnp/samples/job/JobConductor.java:68-87 | a Job resolves to itself whatever the registry holds. A Pod resolves exactly when its job label is present, registered and stored, and then to the stored Job |
| JobConductor.WaitForCondition | src/main/java/com/ibm/cnp/samples/job/JobConductor.java:166-176 | passes exactly when the value equals the target and otherwise only ever asks to retry |
| JobConductor.ProcessFrom | src/main/java/com/ibm/cnp/samples/job/JobConductor.java:192-210 | READY does nothing. UNDEFINED falls through to the POD_CREATION check only when the trigger is a Job already reading POD_CREATION, and is otherwise NotReady. At that check READY is issued exactly when desired equals the pod count; the outcome is then Done or CommandError as the call returns or raises, and otherwise NotReady with no call. No other call is ever issued |
| JobConductor.Process | src/main/java/com/ibm/cnp/samples/job/JobConductor.java:182-211 | READY does nothing. In POD_CREATION, READY is issued exactly when desired equals the Pod store's total size; otherwise the result is NotReady with no call. UNDEFINED without a POD_CREATION Job trigger is NotReady with no call |
| JobConductor.UndefinedNeverAdvances | src/main/java/com/ibm/cnp/samples/job/JobConductor.java:193-198 | an UNDEFINED Job triggered by a Pod or by itself ends NotReady with no call |
| JobConductor.Handle | src/main/java/com/ibm/cnp/samples/job/JobConductor.java:122-160 | Job addition/deletion inserts/removes exactly that name and runs nothing. Pod notifications never touch the registry, and uncorrelated or modified Pods do nothing. A Job modification issues POD_CREATION iff desired changed, before processing. A correlated Pod deletion issues POD_CREATION, then processes. No call targets UNDEFINED |
| JobConductor.ResetSeesOldSnapshot | src/main/java/com/ibm/cnp/samples/job/JobConductor.java:142-148 | a desired change on a READY Job issues the reset and nothing else, because processing sees the READY snapshot |
| JobConductor.PodCreationCountsEveryPod | src/main/java/com/ibm/cnp/samples/job/JobConductor.java:202-204 | a POD_CREATION Job whose own pods number desired is still not ready when another Job's pod is stored |
| JobConductor.BuiltPodCorrelates | src/main/java/com/ibm/cnp/samples/job/JobConductor.java:78-86 | a pod built for a Job resolves back to that Job exactly when the Job is registered and stored |
| JobConductor.Run | src/main/java/com/ibm/cnp/samples/job/JobConductor.java:90-107 | a run that does not halt handles every delivery and none of them ends in an error. A run that halts stops right after the first delivery whose handling ends in an error, the last call being one its coordinator rejected. The calls issued are exactly those of the handled deliveries in order, each handled against the registry the earlier ones left, so nothing is issued after the halt. The registry is the maintenance of exactly the handled deliveries |
| JobConductor.RunStopsAtFirstError | src/main/java/com/ibm/cnp/samples/job/JobConductor.java:103-104 | an error is not caught: if delivery i is the first whose handling ends in an error, the run halts with exactly i + 1 deliveries handled |
| JobConductor.RunHandlesAllWhenAccepted | src/main/java/com/ibm/cnp/samples/job/JobConductor.java:103-105 | when no call raises, NotReady never stops the loop: every delivery is handled, the registry reflects all of them and the calls are those of every delivery |
| JobConductor.RunIssuesResets | src/main/java/com/ibm/cnp/samples/job/JobConductor.java:142-156 | every handled delivery is processed against the registry left by the earlier ones, whatever their outcome. A desired change and a correlated pod deletion each issue their reset to POD_CREATION in the run |
| JobConductor.RegistryAfterLastEvent | src/main/java/com/ibm/cnp/samples/job/JobConductor.java:134-158 | a name is registered after a sequence of notifications exactly when its last Job addition or deletion is an addition, or it was registered before and none touches it |

## Left out

- Threads, the blocking queue, its 5-second poll, the keep-running flag, `start`/`close` and the enqueueing listeners of the conductor: concurrency, replaced by `Run` over a sequence of deliveries.
- The `Coordinator` base class: its pending set, the blocking wait for a watch notification and its timeout. It belongs to the separate `com.ibm.cnp.sync` library, and what it adds is concurrency. `apply` is one `run` plus, on `Wait`, one `check` against a supplied observation.
- JobConductor.Run: the coordinator of each delivery is a pure answer per (Job, state). Within one notification the two calls differ in state, so this loses nothing there.
- JobCoordinator.Apply: does not keep waiting when a check fails. A single observation decides, so a later converging notification is not modelled.
- Kubernetes client calls (the patch, the pod create and delete, the CRD lookup and the deserializer registration in the `JobFactory` constructor): I/O. They become returned effect values.
- Random suffix generation in `getUniquePodName`: the suffixes are a finite input sequence. The source loops until it finds a unique name; the model returns nothing when the supplied suffixes run out.
- `ObjectUtils.deepCopy` is not modelled: its success is the parameter `copied`.
- JobSpecs.CopySpec: the fresh `ArrayList` is not distinguishable from the original under value semantics. Only the equal contents and order are stated.
- `PodStore.getPodsForJob` is not modelled: the controller takes the Job's pods as an input sequence, in store order.
- A null label map on a foreign Pod is modelled as an empty map, not as a null dereference.
- Logging, `Main`, `PodController` and `IJobCoordinator`: plumbing, logging only, or an interface with no logic.

=== FILE: commandstatus.dfy ===
/** The outcome slot of a Job command. */
module CommandStatus {

  datatype JobCommandStatus = Failure | JobNotFound | NoChangeNeeded | Success | Unknown

  const AllStatuses: set<JobCommandStatus> := {Failure, JobNotFound, NoChangeNeeded, Success, Unknown}

  /** True for the status a command holds before it has been decided. */
  function IsUnknown(s: JobCommandStatus): (r: bool)
    ensures r <==> s == Unknown
  {
    match s
    case Unknown => true
    case _ => false
  }

  /** The status type has exactly five values. */
  lemma AllStatusesComplete(s: JobCommandStatus)
    ensures s in AllStatuses
    ensures |AllStatuses| == 5
  {
  }

  /** Exactly one status is the unknown one. */
  lemma ExactlyOneUnknown()
    ensures (set s | s in AllStatuses && IsUnknown(s)) == {Unknown}
  {
  }
}

=== FILE: commons.dfy ===
/**
 The constants shared by the Job and Pod resources: the API group of the custom
 resource, its version, and the label keys and values that tie a Pod to its Job.
 */
module Commons {

  const CrdGroup: string := "cnp.ibm.com"
  const CrdVersion: string := "v1"

  /** Qualifies a name with the API group: "<group>/<name>". */
  function Group(name: string): (r: string)
    ensures |r| == |CrdGroup| + 1 + |name|
    ensures r[..|CrdGroup|] == CrdGroup
    ensures r[|CrdGroup|] == '/'
    ensures r[|CrdGroup| + 1..] == name
  {
    CrdGroup + "/" + name
  }

  const ApiVersion: string := Group(CrdVersion)

  const AppLabelKey: string := "app"
  const AppLabelValue: string := "cnp"

  const JobLabelKey: string := Group("job")

  /** Distinct names are qualified into distinct group names. */
  lemma GroupInjective(a: string, b: string)
    ensures Group(a) == Group(b) <==> a == b
  {
  }

  lemma ConstantValues()
    ensures ApiVersion == "cnp.ibm.com/v1"
    ensures JobLabelKey == "cnp.ibm.com/job"
    ensures AppLabelKey == "app" && AppLabelValue == "cnp"
  {
  }

  /** The two label keys a Pod carries never collide, so both survive in its label map. */
  lemma LabelKeysDistinct()
    ensures AppLabelKey != JobLabelKey
  {
  }
}

=== FILE: jobconductor.dfy ===
/**
 The reconciliation step. Each change notification of a Job or a Pod is
 correlated to its owning Job through the registry of known Job names; Job
 additions and deletions maintain the registry, and the other notifications
 drive the Job's state machine UNDEFINED -> POD_CREATION -> READY.

 `updateState` belongs to the coordinator and is a parameter here: `coord(job, s)`
 is true when the call returns normally and false when it raises an error.
 The step never writes the Job or Pod stores; it returns the new registry, the
 `updateState` calls in issue order and a three-way outcome.
 */
module JobConductor {

  import opened Wrappers
  import opened JobSpecs
  import opened Resources
  import opened Commons
  import PodFactory

  /** Done; NotReady is the retryable "operation in progress"; CommandError is an error raised by `updateState`. */
  datatype Outcome = Done | NotReady | CommandError

  /** One `updateState(job, state)` call. */
  datatype StateCall = StateCall(job: Job, state: JobState)

  /** The calls a state-machine pass issued and how it ended. */
  datatype Report = Report(calls: seq<StateCall>, outcome: Outcome)

  /** The result of handling one notification. */
  datatype Step = Step(registry: set<string>, calls: seq<StateCall>, outcome: Outcome)

  /** The Job a Pod names in its job label, when that Job is registered and stored. */
  predicate Correlated(registry: set<string>, jobs: map<string, Job>, pod: Pod)
  {
    var name := Label(pod.meta, JobLabelKey);
    name.Some? && name.value in registry && name.value in jobs
  }

  /** A Job owns itself; a Pod is owned by the registered, stored Job its label names. */
  function GetJobForResource(registry: set<string>, jobs: map<string, Job>, r: Resource): (o: Option<Job>)
    ensures r.JobResource? ==> o == Some(r.job)
    ensures r.PodResource? ==> (o.Some? <==> Correlated(registry, jobs, r.pod))
    ensures r.PodResource? && o.Some? ==> o.value == jobs[Label(r.pod.meta, JobLabelKey).value]
  {
    match r
    case JobResource(job) => Some(job)
    case PodResource(pod) =>
      match Label(pod.meta, JobLabelKey)
      case None => None
      case Some(name) =>
        if name !in registry then None
        else if name in jobs then Some(jobs[name])
        else None
  }

  /** Passes when the observed value has reached the target, else asks to retry. */
  function WaitForCondition<T(==)>(value: T, target: T): (o: Outcome)
    ensures o != CommandError
    ensures o == Done <==> value == target
  {
    if value == target then Done else NotReady
  }

  /** Distance of a state from READY along the transition order. */
  function Rank(s: JobState): nat
  {
    match s
    case Undefined => 2
    case PodCreation => 1
    case Ready => 0
  }

  /** Issue one call; when it returns normally, continue with `next`. */
  function Then(call: StateCall, accepted: bool, next: Report): (r: Report)
    ensures |r.calls| >= 1 && r.calls[0] == call
    ensures accepted ==> r.calls[1..] == next.calls && r.outcome == next.outcome
    ensures !accepted ==> r.calls == [call] && r.outcome == CommandError
  {
    if accepted then Report([call] + next.calls, next.outcome) else Report([call], CommandError)
  }

  /** The stage reaches the POD_CREATION check: it is that stage, or UNDEFINED falling through. */
  predicate ReachesPodCreation(stage: JobState, trigger: Resource)
  {
    stage == PodCreation || (stage == Undefined && trigger.JobResource? && trigger.job.spec.state == PodCreation)
  }

  /**
   Evaluates stage `stage` of the state machine for `job` and, when it passes,
   the next one. UNDEFINED needs the triggering resource to be a Job whose
   snapshot already reads POD_CREATION; POD_CREATION needs the Pod store's
   total size to equal `desired`, then moves the Job to READY; READY is final.
   */
  function ProcessFrom(stage: JobState, job: Job, trigger: Resource, podCount: nat,
                       coord: (Job, JobState) -> bool): (r: Report)
    decreases Rank(stage)
    ensures stage == Ready ==> r == Report([], Done)
    ensures stage == Undefined && !ReachesPodCreation(stage, trigger) ==> r == Report([], NotReady)
    ensures ReachesPodCreation(stage, trigger) ==>
              (r.calls == [StateCall(job, Ready)] <==> job.spec.desired == podCount)
    ensures ReachesPodCreation(stage, trigger) && job.spec.desired != podCount ==> r == Report([], NotReady)
    ensures ReachesPodCreation(stage, trigger) && job.spec.desired == podCount ==>
              r.outcome == (if coord(job, Ready) then Done else CommandError)
    ensures forall c | c in r.calls :: c == StateCall(job, Ready)
    ensures r.outcome == CommandError ==> r.calls == [StateCall(job, Ready)] && !coord(job, Ready)
    ensures r.outcome != CommandError ==> forall c | c in r.calls :: coord(c.job, c.state)
  {
    match stage
    case Undefined =>
      if !trigger.JobResource? then Report([], NotReady)
      else if WaitForCondition(trigger.job.spec.state, PodCreation) == NotReady then Report([], NotReady)
      else ProcessFrom(PodCreation, job, trigger, podCount, coord)
    case PodCreation =>
      if WaitForCondition(job.spec.desired, podCount as int) == NotReady then Report([], NotReady)
      else Then(StateCall(job, Ready), coord(job, Ready), ProcessFrom(Ready, job, trigger, podCount, coord))
    case Ready =>
      Report([], Done)
  }

  /** The state machine for `job`, seen through the snapshot `job` carries. */
  function Process(job: Job, trigger: Resource, podCount: nat, coord: (Job, JobState) -> bool): (r: Report)
    ensures job.spec.state == Ready ==> r == Report([], Done)
    ensures job.spec.state == PodCreation ==>
              (r.calls == [StateCall(job, Ready)] <==> job.spec.desired == podCount)
    ensures job.spec.state == PodCreation && job.spec.desired != podCount ==> r == Report([], NotReady)
    ensures job.spec.state == PodCreation && job.spec.desired == podCount ==>
              r.outcome == (if coord(job, Ready) then Done else CommandError)
    ensures job.spec.state == Undefined && !(trigger.JobResource? && trigger.job.spec.state == PodCreation) ==>
              r == Report([], NotReady)
    ensures forall c | c in r.calls :: c == StateCall(job, Ready)
    ensures r.outcome == CommandError ==> r.calls == [StateCall(job, Ready)] && !coord(job, Ready)
    ensures r.outcome != CommandError ==> forall c | c in r.calls :: coord(c.job, c.state)
  {
    if job.spec.state == Ready then Report([], Done)
    else ProcessFrom(job.spec.state, job, trigger, podCount, coord)
  }

  /**
   An UNDEFINED Job never advances within one notification: the trigger is a
   Pod, or it is the Job itself, whose snapshot reads UNDEFINED and not
   POD_CREATION. The fall-through from UNDEFINED is unreachable from `Handle`.
   */
  lemma UndefinedNeverAdvances(job: Job, trigger: Resource, podCount: nat, coord: (Job, JobState) -> bool)
    requires job.spec.state == Undefined
    requires trigger.PodResource? || trigger == JobResource(job)
    ensures Process(job, trigger, podCount, coord) == Report([], NotReady)
  {
  }

  /**
   What a sequence of issued calls looks like: never a move to UNDEFINED, every
   call but the last returned normally, and the last one raised an error
   exactly when the sequence ended in an error.
   */
  predicate Settled(calls: seq<StateCall>, failed: bool, coord: (Job, JobState) -> bool)
  {
    && (forall c | c in calls :: c.state != Undefined)
    && (forall i | 0 <= i < |calls| - 1 :: coord(calls[i].job, calls[i].state))
    && (failed ==> |calls| >= 1)
    && (|calls| >= 1 ==> (coord(calls[|calls| - 1].job, calls[|calls| - 1].state) <==> !failed))
  }

  /** A state-machine pass is a settled sequence of calls. */
  lemma ProcessSettled(job: Job, trigger: Resource, podCount: nat, coord: (Job, JobState) -> bool)
    ensures var r := Process(job, trigger, podCount, coord);
            Settled(r.calls, r.outcome == CommandError, coord)
  {
  }

  /** A call that returned or raised as `coord` says, before a settled pass, is still settled. */
  lemma ThenSettled(call: StateCall, next: Report, coord: (Job, JobState) -> bool)
    requires call.state != Undefined
    requires Settled(next.calls, next.outcome == CommandError, coord)
    ensures var r := Then(call, coord(call.job, call.state), next);
            Settled(r.calls, r.outcome == CommandError, coord)
  {
  }

  /** A state-machine report as the step of a notification that leaves the registry as it is. */
  function Lift(registry: set<string>, r: Report): Step
  {
    Step(registry, r.calls, r.outcome)
  }

  /** Handles one change notification against the stores it was delivered with. */
  function Handle(registry: set<string>, jobs: map<string, Job>, pods: map<string, Pod>,
                  e: Event<Resource>, coord: (Job, JobState) -> bool): (s: Step)
    requires WellFormed(e)
    // registry maintenance
    ensures e.Addition? && e.cur.JobResource? ==> s == Step(registry + {e.cur.job.meta.name}, [], Done)
    ensures e.Deletion? && e.cur.JobResource? ==> s == Step(registry - {e.cur.job.meta.name}, [], Done)
    ensures !(e.Addition? || e.Deletion?) || e.cur.PodResource? ==> s.registry == registry
    // correlation filtering
    ensures e.cur.PodResource? && !Correlated(registry, jobs, e.cur.pod) ==> s == Step(registry, [], Done)
    ensures e.Modification? && e.cur.PodResource? ==> s == Step(registry, [], Done)
    // forced resets
    ensures e.Modification? && e.cur.JobResource? ==>
              (StateCall(e.cur.job, PodCreation) in s.calls <==> e.cur.job.spec.desired != e.pre.job.spec.desired)
    ensures e.Modification? && e.cur.JobResource? && e.cur.job.spec.desired != e.pre.job.spec.desired ==>
              s.calls[0] == StateCall(e.cur.job, PodCreation)
    // what reaches the state machine
    ensures e.Addition? && e.cur.PodResource? && Correlated(registry, jobs, e.cur.pod) ==>
              Report(s.calls, s.outcome) == Process(jobs[Label(e.cur.pod.meta, JobLabelKey).value], e.cur, |pods|, coord)
    ensures e.Modification? && e.cur.JobResource? && e.cur.job.spec.desired == e.pre.job.spec.desired ==>
              Report(s.calls, s.outcome) == Process(e.cur.job, e.cur, |pods|, coord)
    ensures e.Modification? && e.cur.JobResource? && e.cur.job.spec.desired != e.pre.job.spec.desired ==>
              if coord(e.cur.job, PodCreation) then Report(s.calls[1..], s.outcome) == Process(e.cur.job, e.cur, |pods|, coord)
              else s == Step(registry, [StateCall(e.cur.job, PodCreation)], CommandError)
    ensures e.Deletion? && e.cur.PodResource? && Correlated(registry, jobs, e.cur.pod) ==>
              var job := jobs[Label(e.cur.pod.meta, JobLabelKey).value];
              && |s.calls| >= 1
              && s.calls[0] == StateCall(job, PodCreation)
              && (coord(job, PodCreation) ==>
                    Report(s.calls[1..], s.outcome) == Process(job, e.cur, |pods|, coord))
    // what is ever issued
    ensures Settled(s.calls, s.outcome == CommandError, coord)
  {
    match GetJobForResource(registry, jobs, e.cur)
    case None => Step(registry, [], Done)
    case Some(job) =>
      match e
      case Addition(cur) =>
        if cur.JobResource? then Step(registry + {cur.job.meta.name}, [], Done)
        else
          ProcessSettled(job, cur, |pods|, coord);
          Lift(registry, Process(job, cur, |pods|, coord))
      case Modification(pre, cur) =>
        if !cur.JobResource? then Step(registry, [], Done)
        else
          ProcessSettled(job, cur, |pods|, coord);
          if cur.job.spec.desired != pre.job.spec.desired then
            ThenSettled(StateCall(job, PodCreation), Process(job, cur, |pods|, coord), coord);
            Lift(registry, Then(StateCall(job, PodCreation), coord(job, PodCreation), Process(job, cur, |pods|, coord)))
          else Lift(registry, Process(job, cur, |pods|, coord))
      case Deletion(cur) =>
        if cur.JobResource? then Step(registry - {cur.job.meta.name}, [], Done)
        else
          ProcessSettled(job, cur, |pods|, coord);
          ThenSettled(StateCall(job, PodCreation), Process(job, cur, |pods|, coord), coord);
          Lift(registry, Then(StateCall(job, PodCreation), coord(job, PodCreation), Process(job, cur, |pods|, coord)))
  }

  /**
   A Job modification that changes `desired` on a READY Job resets it to
   POD_CREATION, yet the state machine then runs on the notification's own
   snapshot, which still reads READY, and so does nothing more.
   */
  lemma ResetSeesOldSnapshot(registry: set<string>, jobs: map<string, Job>, pods: map<string, Pod>,
                             pre: Job, cur: Job, coord: (Job, JobState) -> bool)
    requires cur.spec.state == Ready && cur.spec.desired != pre.spec.desired
    requires coord(cur, PodCreation)
    ensures Handle(registry, jobs, pods, Modification(JobResource(pre), JobResource(cur)), coord)
            == Step(registry, [StateCall(cur, PodCreation)], Done)
  {
  }

  /** The keys of the stored Pods whose job label names `job`. */
  function JobPodKeys(pods: map<string, Pod>, job: Job): set<string>
  {
    set k | k in pods && Label(pods[k].meta, JobLabelKey) == Some(job.meta.name)
  }

  /**
   The POD_CREATION check compares `desired` with the size of the whole Pod
   store. When another Job's Pod is stored too, a Job whose own Pods number
   exactly `desired` is still reported not ready.
   */
  lemma PodCreationCountsEveryPod(job: Job, trigger: Resource, pods: map<string, Pod>,
                                  coord: (Job, JobState) -> bool, other: string)
    requires job.spec.state == PodCreation
    requires |JobPodKeys(pods, job)| == job.spec.desired
    requires other in pods && Label(pods[other].meta, JobLabelKey) != Some(job.meta.name)
    ensures Process(job, trigger, |pods|, coord) == Report([], NotReady)
  {
    var own := JobPodKeys(pods, job);
    assert own <= pods.Keys - {other};
    assert |own| <= |pods.Keys - {other}| == |pods.Keys| - 1 by {
      SubsetCardinality(own, pods.Keys - {other});
    }
    assert |pods.Keys| == |pods|;
  }

  lemma {:induction false} SubsetCardinality<T>(a: set<T>, b: set<T>)
    requires a <= b
    ensures |a| <= |b|
  {
    if a != {} {
      var x :| x in a;
      SubsetCardinality(a - {x}, b - {x});
    }
  }

  /** A Pod built for a registered, stored Job is correlated back to that Job. */
  lemma BuiltPodCorrelates(registry: set<string>, jobs: map<string, Job>, job: Job, name: string)
    ensures GetJobForResource(registry, jobs, PodResource(PodFactory.BuildPod(job, name)))
            == (if job.meta.name in registry && job.meta.name in jobs then Some(jobs[job.meta.name]) else None)
  {
  }

  /**
   One notification, the store snapshots it is handled against, and the
   coordinator as it answers while this notification is handled.
   */
  datatype Delivery = Delivery(event: Event<Resource>, jobs: map<string, Job>, pods: map<string, Pod>,
                               coord: (Job, JobState) -> bool)

  /**
   The registry after the run, every call issued, whether an error ended the
   loop, and how many deliveries were handled.
   */
  datatype Trace = Trace(registry: set<string>, calls: seq<StateCall>, halted: bool, handled: nat)

  predicate AllWellFormed(ds: seq<Delivery>)
  {
    forall i | 0 <= i < |ds| :: WellFormed(ds[i].event)
  }

  predicate AddsJob(e: Event<Resource>, name: string)
  {
    e.Addition? && e.cur.JobResource? && e.cur.job.meta.name == name
  }

  predicate RemovesJob(e: Event<Resource>, name: string)
  {
    e.Deletion? && e.cur.JobResource? && e.cur.job.meta.name == name
  }

  /** The registry maintenance a notification asks for, read off the event alone. */
  function RegistryEffect(registry: set<string>, e: Event<Resource>): set<string>
  {
    if e.Addition? && e.cur.JobResource? then registry + {e.cur.job.meta.name}
    else if e.Deletion? && e.cur.JobResource? then registry - {e.cur.job.meta.name}
    else registry
  }

  /** The registry after the maintenance of every notification in `ds`, in order. */
  function RegistryAfter(registry: set<string>, ds: seq<Delivery>): set<string>
    decreases |ds|
  {
    if ds == [] then registry else RegistryAfter(RegistryEffect(registry, ds[0].event), ds[1..])
  }

  lemma RegistryAfterPrefix(registry: set<string>, ds: seq<Delivery>, k: nat)
    requires 1 <= k <= |ds|
    ensures RegistryAfter(registry, ds[..k]) == RegistryAfter(RegistryEffect(registry, ds[0].event), ds[1..][..k - 1])
  {
    assert ds[..k][1..] == ds[1..][..k - 1];
  }

  /** The registry of `trace` is the maintenance of exactly the deliveries it handled. */
  predicate RegistryTracks(registry: set<string>, ds: seq<Delivery>, trace: Trace)
  {
    trace.handled <= |ds| && trace.registry == RegistryAfter(registry, ds[..trace.handled])
  }

  /** The last call in `calls` is one the coordinator of `d` rejected. */
  predicate EndsRejected(d: Delivery, calls: seq<StateCall>)
  {
    |calls| >= 1 && !d.coord(calls[|calls| - 1].job, calls[|calls| - 1].state)
  }

  /** Handles one delivery with the coordinator it carries. */
  function HandleDelivery(registry: set<string>, d: Delivery): (s: Step)
    requires WellFormed(d.event)
    ensures s.registry == RegistryEffect(registry, d.event)
    ensures Settled(s.calls, s.outcome == CommandError, d.coord)
  {
    Handle(registry, d.jobs, d.pods, d.event, d.coord)
  }

  /** How delivery `j` is handled: against the registry the deliveries before it left. */
  function StepAt(registry: set<string>, ds: seq<Delivery>, j: nat): Step
    requires AllWellFormed(ds) && j < |ds|
  {
    HandleDelivery(RegistryAfter(registry, ds[..j]), ds[j])
  }

  /** No delivery before position `k` ends in an error. */
  predicate NoErrorBefore(registry: set<string>, ds: seq<Delivery>, k: nat)
    requires AllWellFormed(ds) && k <= |ds|
  {
    forall j | 0 <= j < k :: StepAt(registry, ds, j).outcome != CommandError
  }

  /** The calls of every delivery in `ds`, in order, each handled against the registry the earlier ones left. */
  function CallsOf(registry: set<string>, ds: seq<Delivery>): seq<StateCall>
    requires AllWellFormed(ds)
    decreases |ds|
  {
    if ds == [] then []
    else
      assert AllWellFormed(ds[1..]);
      HandleDelivery(registry, ds[0]).calls + CallsOf(RegistryEffect(registry, ds[0].event), ds[1..])
  }

  /** The calls of `trace` are exactly those of the deliveries it handled, in order. */
  predicate CallsTrack(registry: set<string>, ds: seq<Delivery>, trace: Trace)
    requires AllWellFormed(ds)
  {
    trace.handled <= |ds| && trace.calls == CallsOf(registry, ds[..trace.handled])
  }

  /**
   Where the run stops: a run that did not halt handled every delivery and
   none ended in an error; a run that halted stopped right after the first
   delivery that ended in an error.
   */
  predicate StopsAtFirstError(registry: set<string>, ds: seq<Delivery>, trace: Trace)
    requires AllWellFormed(ds)
  {
    && (!trace.halted ==> trace.handled == |ds| && NoErrorBefore(registry, ds, |ds|))
    && (trace.halted ==>
          && 1 <= trace.handled <= |ds|
          && NoErrorBefore(registry, ds, trace.handled - 1)
          && StepAt(registry, ds, trace.handled - 1).outcome == CommandError)
  }

  /** Everything `trace` says about a run of the conductor loop over `ds`. */
  predicate RunOf(registry: set<string>, ds: seq<Delivery>, trace: Trace)
    requires AllWellFormed(ds)
  {
    && trace.handled <= |ds|
    && StopsAtFirstError(registry, ds, trace)
    && (trace.halted ==> 1 <= trace.handled <= |ds| && EndsRejected(ds[trace.handled - 1], trace.calls))
    && CallsTrack(registry, ds, trace)
    && (forall c | c in trace.calls :: c.state != Undefined)
    && RegistryTracks(registry, ds, trace)
  }

  lemma StepAtFirst(registry: set<string>, ds: seq<Delivery>)
    requires AllWellFormed(ds) && |ds| >= 1
    ensures StepAt(registry, ds, 0) == HandleDelivery(registry, ds[0])
  {
    assert ds[..0] == [];
  }

  lemma StepAtShift(registry: set<string>, ds: seq<Delivery>, j: nat)
    requires AllWellFormed(ds) && 1 <= j < |ds|
    ensures AllWellFormed(ds[1..])
    ensures StepAt(registry, ds, j) == StepAt(RegistryEffect(registry, ds[0].event), ds[1..], j - 1)
  {
    assert AllWellFormed(ds[1..]);
    RegistryAfterPrefix(registry, ds, j);
    assert ds[1..][j - 1] == ds[j];
  }

  /** A first delivery without error, followed by `k - 1` more without error, makes `k` without error. */
  lemma NoErrorShift(registry: set<string>, ds: seq<Delivery>, k: nat)
    requires AllWellFormed(ds) && 1 <= k <= |ds|
    requires HandleDelivery(registry, ds[0]).outcome != CommandError
    requires AllWellFormed(ds[1..]) && NoErrorBefore(RegistryEffect(registry, ds[0].event), ds[1..], k - 1)
    ensures NoErrorBefore(registry, ds, k)
  {
    forall j | 0 <= j < k
      ensures StepAt(registry, ds, j).outcome != CommandError
    {
      if j == 0 {
        StepAtFirst(registry, ds);
      } else {
        StepAtShift(registry, ds, j);
      }
    }
  }

  lemma CallsOfPrefix(registry: set<string>, ds: seq<Delivery>, k: nat)
    requires AllWellFormed(ds) && 1 <= k <= |ds|
    ensures AllWellFormed(ds[1..])
    ensures CallsOf(registry, ds[..k])
            == HandleDelivery(registry, ds[0]).calls + CallsOf(RegistryEffect(registry, ds[0].event), ds[1..][..k - 1])
  {
    assert AllWellFormed(ds[1..]);
    assert ds[..k][0] == ds[0];
    assert ds[..k][1..] == ds[1..][..k - 1];
  }

  /**
   The conductor loop over a sequence of deliveries: NotReady is absorbed and
   the loop goes on; an error raised by `updateState` is not caught, so the
   loop stops at the notification that raised it.
   */
  function Run(registry: set<string>, ds: seq<Delivery>): (trace: Trace)
    requires AllWellFormed(ds)
    ensures trace.handled <= |ds|
    ensures StopsAtFirstError(registry, ds, trace)
    ensures trace.halted ==> 1 <= trace.handled <= |ds| && EndsRejected(ds[trace.handled - 1], trace.calls)
    ensures CallsTrack(registry, ds, trace)
    ensures forall c | c in trace.calls :: c.state != Undefined
    ensures RegistryTracks(registry, ds, trace)
  {
    if ds == [] then Trace(registry, [], false, 0)
    else RunOn(registry, ds, HandleDelivery(registry, ds[0]))
  }

  /** The run once its first delivery has been handled into `s`. */
  function RunOn(registry: set<string>, ds: seq<Delivery>, s: Step): (trace: Trace)
    requires AllWellFormed(ds) && |ds| >= 1
    requires s == HandleDelivery(registry, ds[0])
    decreases |ds|
    ensures RunOf(registry, ds, trace)
  {
    assert AllWellFormed(ds[1..]);
    if s.outcome == CommandError then
      RunHalts(registry, ds, s);
      Trace(s.registry, s.calls, true, 1)
    else if |ds| == 1 then
      var rest := Trace(s.registry, [], false, 0);
      RunStep(registry, ds, s, rest);
      Trace(s.registry, s.calls, false, 1)
    else
      var rest := RunOn(s.registry, ds[1..], HandleDelivery(s.registry, ds[1]));
      RunStep(registry, ds, s, rest);
      Trace(rest.registry, s.calls + rest.calls, rest.halted, rest.handled + 1)
  }

  /** A delivery whose last call raised ends the run there. */
  lemma RunHalts(registry: set<string>, ds: seq<Delivery>, s: Step)
    requires AllWellFormed(ds) && |ds| >= 1
    requires s == HandleDelivery(registry, ds[0])
    requires s.outcome == CommandError
    ensures RunOf(registry, ds, Trace(s.registry, s.calls, true, 1))
  {
    assert ds[..1][1..] == [];
    StepAtFirst(registry, ds);
    CallsOfPrefix(registry, ds, 1);
  }

  /** A delivery handled without error, followed by the run over the rest, accounts for the whole run. */
  lemma RunStep(registry: set<string>, ds: seq<Delivery>, s: Step, rest: Trace)
    requires AllWellFormed(ds) && |ds| >= 1
    requires s == HandleDelivery(registry, ds[0])
    requires s.outcome != CommandError
    requires AllWellFormed(ds[1..])
    requires RunOf(s.registry, ds[1..], rest)
    ensures RunOf(registry, ds, Trace(rest.registry, s.calls + rest.calls, rest.halted, rest.handled + 1))
  {
    RunStepStops(registry, ds, s, rest);
    RunStepCalls(registry, ds, s, rest);
    RunStepRegistry(registry, ds, s, rest);
  }

  /** A delivery handled without error, followed by the run over the rest: where the whole run stops. */
  lemma RunStepStops(registry: set<string>, ds: seq<Delivery>, s: Step, rest: Trace)
    requires AllWellFormed(ds) && |ds| >= 1
    requires s == HandleDelivery(registry, ds[0])
    requires s.outcome != CommandError
    requires AllWellFormed(ds[1..])
    requires StopsAtFirstError(s.registry, ds[1..], rest)
    requires rest.halted ==> 1 <= rest.handled <= |ds| - 1 && EndsRejected(ds[1..][rest.handled - 1], rest.calls)
    ensures var t := Trace(rest.registry, s.calls + rest.calls, rest.halted, rest.handled + 1);
            && StopsAtFirstError(registry, ds, t)
            && (t.halted ==> EndsRejected(ds[t.handled - 1], t.calls))
  {
    if rest.halted {
      NoErrorShift(registry, ds, rest.handled);
      StepAtShift(registry, ds, rest.handled);
      assert ds[1..][rest.handled - 1] == ds[rest.handled];
      assert (s.calls + rest.calls)[|s.calls + rest.calls| - 1] == rest.calls[|rest.calls| - 1];
    } else {
      NoErrorShift(registry, ds, |ds|);
    }
  }

  /** A delivery handled without error, followed by the run over the rest: the calls of the whole run. */
  lemma RunStepCalls(registry: set<string>, ds: seq<Delivery>, s: Step, rest: Trace)
    requires AllWellFormed(ds) && |ds| >= 1
    requires s == HandleDelivery(registry, ds[0])
    requires AllWellFormed(ds[1..])
    requires CallsTrack(s.registry, ds[1..], rest)
    requires forall c | c in rest.calls :: c.state != Undefined
    ensures var t := Trace(rest.registry, s.calls + rest.calls, rest.halted, rest.handled + 1);
            && CallsTrack(registry, ds, t)
            && (forall c | c in t.calls :: c.state != Undefined)
  {
    CallsOfPrefix(registry, ds, rest.handled + 1);
  }

  /** A delivery, followed by the run over the rest: the registry of the whole run. */
  lemma RunStepRegistry(registry: set<string>, ds: seq<Delivery>, s: Step, rest: Trace)
    requires |ds| >= 1
    requires s.registry == RegistryEffect(registry, ds[0].event)
    requires RegistryTracks(s.registry, ds[1..], rest)
    ensures var t := Trace(rest.registry, s.calls + rest.calls, rest.halted, rest.handled + 1);
            && t.handled <= |ds|
            && RegistryTracks(registry, ds, t)
  {
    RegistryAfterPrefix(registry, ds, rest.handled + 1);
  }

  /** The run halts right after the first delivery that ends in an error, whatever NotReady came before. */
  lemma RunStopsAtFirstError(registry: set<string>, ds: seq<Delivery>, i: nat)
    requires AllWellFormed(ds) && i < |ds|
    requires NoErrorBefore(registry, ds, i)
    requires StepAt(registry, ds, i).outcome == CommandError
    ensures Run(registry, ds).halted
    ensures Run(registry, ds).handled == i + 1
  {
  }

  /** When the coordinator never raises, the loop handles every delivery. */
  lemma RunHandlesAllWhenAccepted(registry: set<string>, ds: seq<Delivery>)
    requires AllWellFormed(ds)
    requires forall i, job, st | 0 <= i < |ds| :: ds[i].coord(job, st)
    ensures !Run(registry, ds).halted
    ensures Run(registry, ds).handled == |ds|
    ensures Run(registry, ds).registry == RegistryAfter(registry, ds)
    ensures Run(registry, ds).calls == CallsOf(registry, ds)
  {
    assert ds[..|ds|] == ds;
  }

  /**
   The resets a notification asks for, found in `calls`: a Job modification
   that changes `desired` resets that Job, and a Pod deletion correlated
   through `registry` resets the Job the Pod's label names.
   */
  predicate ResetsIssued(registry: set<string>, d: Delivery, calls: seq<StateCall>)
    requires WellFormed(d.event)
  {
    var e := d.event;
    && (e.Modification? && e.cur.JobResource? && e.cur.job.spec.desired != e.pre.job.spec.desired ==>
          StateCall(e.cur.job, PodCreation) in calls)
    && (e.Deletion? && e.cur.PodResource? && Correlated(registry, d.jobs, e.cur.pod) ==>
          StateCall(d.jobs[Label(e.cur.pod.meta, JobLabelKey).value], PodCreation) in calls)
  }

  lemma HandleIssuesResets(registry: set<string>, d: Delivery)
    requires WellFormed(d.event)
    ensures ResetsIssued(registry, d, HandleDelivery(registry, d).calls)
  {
  }

  lemma ResetsIssuedExtend(registry: set<string>, d: Delivery, a: seq<StateCall>, b: seq<StateCall>)
    requires WellFormed(d.event)
    requires ResetsIssued(registry, d, a)
    ensures ResetsIssued(registry, d, a + b) && ResetsIssued(registry, d, b + a)
  {
  }

  /** Every delivery's resets are among the calls of the whole sequence. */
  lemma {:induction false} CallsOfIssuesResets(registry: set<string>, ds: seq<Delivery>, i: nat)
    requires AllWellFormed(ds) && i < |ds|
    ensures ResetsIssued(RegistryAfter(registry, ds[..i]), ds[i], CallsOf(registry, ds))
    decreases i
  {
    assert AllWellFormed(ds[1..]);
    var h := HandleDelivery(registry, ds[0]);
    var tail := CallsOf(RegistryEffect(registry, ds[0].event), ds[1..]);
    assert CallsOf(registry, ds) == h.calls + tail;
    if i == 0 {
      assert ds[..0] == [];
      HandleIssuesResets(registry, ds[0]);
      ResetsIssuedExtend(registry, ds[0], h.calls, tail);
    } else {
      CallsOfIssuesResets(RegistryEffect(registry, ds[0].event), ds[1..], i - 1);
      RegistryAfterPrefix(registry, ds, i);
      assert ds[1..][i - 1] == ds[i];
      ResetsIssuedExtend(RegistryAfter(registry, ds[..i]), ds[i], tail, h.calls);
    }
  }

  /**
   Every handled notification is handled against the registry the earlier
   ones left, whatever their outcome: a Job modification that changes
   `desired`, and a Pod deletion correlated through that registry, each issue
   their reset to POD_CREATION within the run.
   */
  lemma RunIssuesResets(registry: set<string>, ds: seq<Delivery>, i: nat)
    requires AllWellFormed(ds)
    requires i < Run(registry, ds).handled
    ensures var e := ds[i].event;
            e.Modification? && e.cur.JobResource? && e.cur.job.spec.desired != e.pre.job.spec.desired ==>
              StateCall(e.cur.job, PodCreation) in Run(registry, ds).calls
    ensures var e := ds[i].event;
            var reg := RegistryAfter(registry, ds[..i]);
            e.Deletion? && e.cur.PodResource? && Correlated(reg, ds[i].jobs, e.cur.pod) ==>
              StateCall(ds[i].jobs[Label(e.cur.pod.meta, JobLabelKey).value], PodCreation) in Run(registry, ds).calls
  {
    var t := Run(registry, ds);
    var hs := ds[..t.handled];
    assert AllWellFormed(hs);
    CallsOfIssuesResets(registry, hs, i);
    assert hs[..i] == ds[..i] && hs[i] == ds[i];
  }

  /** No notification in `ds` adds or deletes the Job named `n`. */
  predicate Untouched(ds: seq<Delivery>, n: string)
  {
    forall j | 0 <= j < |ds| :: !AddsJob(ds[j].event, n) && !RemovesJob(ds[j].event, n)
  }

  /** Some addition of `n` in `ds` is followed by no further addition or deletion of `n`. */
  predicate LastAdds(ds: seq<Delivery>, n: string)
  {
    exists i | 0 <= i < |ds| :: AddsJob(ds[i].event, n) && Untouched(ds[i + 1..], n)
  }

  /**
   A name is in the registry after the maintenance of `ds` exactly when its
   last Job addition or deletion in `ds` is an addition, or when it was
   registered before and `ds` neither adds nor deletes it.
   */
  lemma {:induction false} RegistryAfterLastEvent(registry: set<string>, ds: seq<Delivery>, n: string)
    ensures n in RegistryAfter(registry, ds) <==> LastAdds(ds, n) || (n in registry && Untouched(ds, n))
    decreases |ds|
  {
    if ds != [] {
      var e := ds[0].event;
      var r' := RegistryEffect(registry, e);
      var tl := ds[1..];
      RegistryAfterLastEvent(r', tl, n);
      if LastAdds(tl, n) {
        var i :| 0 <= i < |tl| && AddsJob(tl[i].event, n) && Untouched(tl[i + 1..], n);
        assert tl[i + 1..] == ds[i + 2..];
        assert AddsJob(ds[i + 1].event, n);
      }
      if LastAdds(ds, n) {
        var i :| 0 <= i < |ds| && AddsJob(ds[i].event, n) && Untouched(ds[i + 1..], n);
        if i > 0 {
          assert tl[i - 1] == ds[i] && tl[i..] == ds[i + 1..];
          assert LastAdds(tl, n);
        } else {
          assert n in r' && tl == ds[1..];
        }
      }
      if n in registry && Untouched(ds, n) {
        assert !AddsJob(e, n) && !RemovesJob(e, n);
        assert Untouched(tl, n) by {
          forall j | 0 <= j < |tl| ensures !AddsJob(tl[j].event, n) && !RemovesJob(tl[j].event, n) {
            assert tl[j] == ds[j + 1];
          }
        }
      }
      if n in r' && Untouched(tl, n) {
        if AddsJob(e, n) {
          assert ds[1..] == tl;
          assert LastAdds(ds, n);
        } else {
          assert !RemovesJob(e, n);
          assert n in registry;
          forall j | 0 <= j < |ds| ensures !AddsJob(ds[j].event, n) && !RemovesJob(ds[j].event, n) {
            if j > 0 {
              assert ds[j] == tl[j - 1];
            }
          }
        }
      }
    }
  }
}

=== FILE: jobcontroller.dfy ===
/**
 Reacts to Job notifications by issuing cluster mutations: a new Job is patched
 into the pod-creation state, and a Job entering that state gets exactly as many
 Pods created or deleted as separate its desired count from its current Pods.
 */
module JobController {

  import opened Wrappers
  import opened JobSpecs
  import opened Resources
  import opened JobFactory

  /** A mutation the controller asks of the factories. */
  datatype Effect = PatchJob(patch: Patch) | AddPod(job: Job) | DeletePod(pod: Pod)

  /** How many of `es` add a Pod. */
  function CountAdds(es: seq<Effect>): nat
  {
    if es == [] then 0 else (if es[0].AddPod? then 1 else 0) + CountAdds(es[1..])
  }

  /** How many of `es` delete a Pod. */
  function CountDeletes(es: seq<Effect>): nat
  {
    if es == [] then 0 else (if es[0].DeletePod? then 1 else 0) + CountDeletes(es[1..])
  }

  lemma {:induction false} CountAllAdds(es: seq<Effect>)
    requires forall i | 0 <= i < |es| :: es[i].AddPod?
    ensures CountAdds(es) == |es| && CountDeletes(es) == 0
  {
    if es != [] {
      CountAllAdds(es[1..]);
    }
  }

  lemma {:induction false} CountAllDeletes(es: seq<Effect>)
    requires forall i | 0 <= i < |es| :: es[i].DeletePod?
    ensures CountDeletes(es) == |es| && CountAdds(es) == 0
  {
    if es != [] {
      CountAllDeletes(es[1..]);
    }
  }

  /** `desired - count` in Java `int` arithmetic. */
  function Delta(desired: Int32, count: nat): (d: Int32)
    requires count <= MaxInt32
    ensures -0x8000_0000 <= desired - count ==> d == desired - count
    ensures desired - count < -0x8000_0000 ==> d == desired - count + 0x1_0000_0000
  {
    Wrap32(desired - count)
  }

  /**
   Java's subtraction wraps exactly when `desired - count` falls below the
   smallest `int`; the wrapped delta is then positive and asks for Pods.
   */
  lemma DeltaWrapsForNegativeDesired(desired: Int32, count: nat)
    requires count <= MaxInt32
    requires desired - count < -0x8000_0000
    ensures Delta(desired, count) == desired - count + 0x1_0000_0000
    ensures Delta(desired, count) > 0
  {
    var x := desired - count;
    assert -0x8000_0000 < x + 0x1_0000_0000 <= 0x7fff_ffff;
    assert (x + 0x8000_0000) % 0x1_0000_0000 == x + 0x8000_0000 + 0x1_0000_0000;
  }

  /** A notification whose current snapshot entered the pod-creation state. */
  predicate IntoPodCreation(pre: Job, cur: Job)
  {
    pre.spec.state != cur.spec.state && cur.spec.state == PodCreation
  }

  /**
   The controller's answer to a Job modification. On a state change into pod
   creation, `delta = desired - |pods|`: a non-negative delta adds that many
   Pods for the Job, a negative one deletes the last `-delta` Pods of `pods` in
   order. A negative `desired` makes the first deletion index negative, which
   fails (`ok` false) before anything is issued. Any other notification issues
   nothing.
   */
  predicate ReactsToModification(pre: Job, cur: Job, pods: seq<Pod>, effects: seq<Effect>, ok: bool)
    requires |pods| <= MaxInt32
  {
    && (!IntoPodCreation(pre, cur) ==> ok && effects == [])
    && (!ok ==> effects == [])
    && (IntoPodCreation(pre, cur) && Delta(cur.spec.desired, |pods|) >= 0 ==>
          && ok
          && |effects| == Delta(cur.spec.desired, |pods|)
          && forall i | 0 <= i < |effects| :: effects[i] == AddPod(cur))
    && (IntoPodCreation(pre, cur) && Delta(cur.spec.desired, |pods|) < 0 ==>
          (ok <==> cur.spec.desired >= 0))
    && (IntoPodCreation(pre, cur) && Delta(cur.spec.desired, |pods|) < 0 && ok ==>
          && |effects| == |pods| - cur.spec.desired
          && forall i | 0 <= i < |effects| :: effects[i] == DeletePod(pods[cur.spec.desired + i]))
  }

  method OnModification(pre: Job, cur: Job, pods: seq<Pod>) returns (effects: seq<Effect>, ok: bool)
    requires |pods| <= MaxInt32
    ensures ReactsToModification(pre, cur, pods, effects, ok)
  {
    effects := [];
    ok := true;
    if pre.spec.state == cur.spec.state {
      return;
    }
    match cur.spec.state {
      case Undefined =>
      case Ready =>
      case PodCreation =>
        var delta := Delta(cur.spec.desired, |pods|);
        if delta < 0 {
          var i: int := |pods| + delta;
          while i < |pods|
            invariant |pods| + delta <= i <= |pods|
            invariant 0 <= |pods| + delta ==> |effects| == i - (|pods| + delta)
            invariant |pods| + delta < 0 ==> i == |pods| + delta && effects == []
            invariant forall k | 0 <= k < |effects| :: effects[k] == DeletePod(pods[|pods| + delta + k])
          {
            if i < 0 {
              effects := [];
              ok := false;
              return;
            }
            effects := effects + [DeletePod(pods[i])];
            i := i + 1;
          }
        } else if delta > 0 {
          var k := 0;
          while k < delta
            invariant 0 <= k <= delta
            invariant |effects| == k
            invariant forall j | 0 <= j < k :: effects[j] == AddPod(cur)
          {
            effects := effects + [AddPod(cur)];
            k := k + 1;
          }
        }
    }
  }

  /**
   After a successful reaction into pod creation with a non-negative
   `desired`, the current Pods plus the added minus the deleted ones number
   exactly `desired`.
   */
  lemma ModificationConserves(pre: Job, cur: Job, pods: seq<Pod>, effects: seq<Effect>, ok: bool)
    requires |pods| <= MaxInt32
    requires ReactsToModification(pre, cur, pods, effects, ok)
    requires ok && IntoPodCreation(pre, cur) && cur.spec.desired >= 0
    ensures |pods| + CountAdds(effects) - CountDeletes(effects) == cur.spec.desired
  {
    if Delta(cur.spec.desired, |pods|) >= 0 {
      CountAllAdds(effects);
    } else {
      CountAllDeletes(effects);
    }
  }

  /**
   A negative `desired` far enough below the Pod count wraps into a positive
   delta, and the reaction then adds that many Pods instead of failing.
   */
  lemma WrappedDeltaAddsPods(pre: Job, cur: Job, pods: seq<Pod>, effects: seq<Effect>, ok: bool)
    requires |pods| <= MaxInt32
    requires ReactsToModification(pre, cur, pods, effects, ok)
    requires IntoPodCreation(pre, cur) && cur.spec.desired - |pods| < -0x8000_0000
    ensures ok && |effects| == cur.spec.desired - |pods| + 0x1_0000_0000 > 0
    ensures CountAdds(effects) == |effects| && CountDeletes(effects) == 0
  {
    DeltaWrapsForNegativeDesired(cur.spec.desired, |pods|);
    CountAllAdds(effects);
  }

  /** The deletions issued for distinct Pods are distinct. */
  lemma DeletionsDistinct(pods: seq<Pod>, start: nat, effects: seq<Effect>)
    requires start + |effects| <= |pods|
    requires forall i | 0 <= i < |effects| :: effects[i] == DeletePod(pods[start + i])
    requires forall i, j | 0 <= i < j < |pods| :: pods[i] != pods[j]
    ensures forall i, j | 0 <= i < j < |effects| :: effects[i] != effects[j]
  {
  }

  /** A new Job is patched into the pod-creation state; a failed deep copy issues nothing. */
  function OnAddition(job: Job, copied: bool): (effects: seq<Effect>)
    ensures |effects| == (if copied then 1 else 0)
    ensures forall e | e in effects ::
              && e.PatchJob?
              && e.patch.name == job.meta.name
              && e.patch.payload == WithState(job, PodCreation)
  {
    match Update(job, PodCreation, copied)
    case Some(patch) => [PatchJob(patch)]
    case None => []
  }

  /**
   The controller's listener: `pods` are the Pods currently labelled with the
   notified Job's name, in the order the Pod store yields them; `copied` is the
   outcome of the deep copy an addition's patch needs. Deletions only log.
   */
  method OnEvent(e: Event<Job>, pods: seq<Pod>, copied: bool) returns (effects: seq<Effect>, ok: bool)
    requires |pods| <= MaxInt32
    ensures e.Deletion? ==> ok && effects == []
    ensures e.Addition? ==> ok && effects == OnAddition(e.cur, copied)
    ensures e.Modification? ==> ReactsToModification(e.pre, e.cur, pods, effects, ok)
    ensures CountAdds(effects) > 0 || CountDeletes(effects) > 0 ==> e.Modification? && IntoPodCreation(e.pre, e.cur)
  {
    match e {
      case Addition(job) =>
        effects, ok := OnAddition(job, copied), true;
        assert CountAdds(effects) == 0 && CountDeletes(effects) == 0 by {
          if copied {
            assert effects == [effects[0]];
          }
        }
      case Modification(pre, cur) =>
        effects, ok := OnModification(pre, cur, pods);
        if !IntoPodCreation(pre, cur) {
          assert effects == [];
        } else if Delta(cur.spec.desired, |pods|) >= 0 {
          CountAllAdds(effects);
        } else {
          CountAllDeletes(effects);
        }
      case Deletion(_) =>
        effects, ok := [], true;
    }
  }
}

=== FILE: jobcoordinator.dfy ===
/**
 The "move Job J to state S" command and the synchronous update built on it:
 run the command, and when it issued a patch, check the next observed Job
 against the target state; then map the final status to success or error.
 */
module JobCoordinator {

  import opened Wrappers
  import opened JobSpecs
  import opened Resources
  import opened CommandStatus
  import opened JobFactory

  /** What `run` tells the coordinator: decided already, or wait for an observation. */
  datatype Action = Remove | Wait

  datatype UpdateStateCommand = UpdateStateCommand(jobName: string, state: JobState, status: JobCommandStatus)

  /** A command fresh from its constructor: the Job's name, the target state, status Unknown. */
  function NewCommand(job: Job, state: JobState): (c: UpdateStateCommand)
    ensures IsUnknown(c.status)
    ensures c.jobName == job.meta.name && c.state == state
  {
    UpdateStateCommand(job.meta.name, state, Unknown)
  }

  /** The command after `run`, the action it returned and the patches it issued. */
  datatype Ran = Ran(command: UpdateStateCommand, action: Action, patches: seq<Patch>)

  function Run(c: UpdateStateCommand, jobs: map<string, Job>, copied: bool): (r: Ran)
    ensures r.command.jobName == c.jobName && r.command.state == c.state
    ensures c.jobName !in jobs ==> r.command.status == JobNotFound && r.action == Remove && r.patches == []
    ensures c.jobName in jobs && jobs[c.jobName].spec.state == c.state ==>
              r.command.status == NoChangeNeeded && r.action == Remove && r.patches == []
    ensures c.jobName in jobs && jobs[c.jobName].spec.state != c.state ==>
              && r.action == Wait
              && r.command.status == c.status
              && |r.patches| == (if copied then 1 else 0)
              && forall p | p in r.patches :: p.name == jobs[c.jobName].meta.name && p.payload.spec.state == c.state
  {
    if c.jobName !in jobs then
      Ran(c.(status := JobNotFound), Remove, [])
    else if jobs[c.jobName].spec.state == c.state then
      Ran(c.(status := NoChangeNeeded), Remove, [])
    else
      var patch := Update(jobs[c.jobName], c.state, copied);
      Ran(c, Wait, if patch.Some? then [patch.value] else [])
  }

  /** The convergence check against a notification; `converged` is what it returns. */
  datatype Checked = Checked(command: UpdateStateCommand, converged: bool)

  function Check(c: UpdateStateCommand, pre: Job, cur: Job): (r: Checked)
    ensures r.converged <==> cur.spec.state == c.state
    ensures r.command.status == Success <==> r.converged
    ensures r.command.status == Failure <==> !r.converged
    ensures r.command.jobName == c.jobName && r.command.state == c.state
  {
    var result := cur.spec.state == c.state;
    Checked(c.(status := if result then Success else Failure), result)
  }

  /** The reported failures; `Unknown` surfacing at the end is reported as an invalid state. */
  datatype UpdateError = OperationFailed | JobMissing | InvalidState

  function ProcessStatus(s: JobCommandStatus): (r: Option<UpdateError>)
    ensures r.None? <==> s == Success || s == NoChangeNeeded
    ensures IsUnknown(s) ==> r == Some(InvalidState)
    ensures s == JobNotFound ==> r == Some(JobMissing)
    ensures s == Failure ==> r == Some(OperationFailed)
  {
    match s
    case Failure => Some(OperationFailed)
    case JobNotFound => Some(JobMissing)
    case NoChangeNeeded => None
    case Success => None
    case Unknown => Some(InvalidState)
  }

  /** The command once applied, and the patches issued on the way. */
  datatype Applied = Applied(command: UpdateStateCommand, patches: seq<Patch>)

  /**
   Runs the command and, when it asks to wait, checks it once against `next`,
   the notification its wait observes, with the stored Job as the prior snapshot.
   */
  function Apply(c: UpdateStateCommand, jobs: map<string, Job>, copied: bool, next: Job): (r: Applied)
    ensures !IsUnknown(r.command.status)
    ensures |r.patches| == (if c.jobName in jobs && jobs[c.jobName].spec.state != c.state && copied then 1 else 0)
    ensures r.command.status in {JobNotFound, NoChangeNeeded} ==> r.patches == []
    ensures r.command.status == JobNotFound <==> c.jobName !in jobs
    ensures r.command.status == NoChangeNeeded <==> c.jobName in jobs && jobs[c.jobName].spec.state == c.state
    ensures r.command.status == Success <==>
              c.jobName in jobs && jobs[c.jobName].spec.state != c.state && next.spec.state == c.state
  {
    var ran := Run(c, jobs, copied);
    if ran.action == Remove then
      Applied(ran.command, ran.patches)
    else
      var checked := Check(ran.command, jobs[c.jobName], next);
      Applied(checked.command, ran.patches)
  }

  /** The patches an `updateState` call issued, and the error it raised, if any. */
  datatype Updated = Updated(patches: seq<Patch>, error: Option<UpdateError>)

  function UpdateState(jobs: map<string, Job>, job: Job, state: JobState, copied: bool, next: Job): (r: Updated)
    ensures r.error.None? <==>
              job.meta.name in jobs && (jobs[job.meta.name].spec.state == state || next.spec.state == state)
    ensures job.meta.name !in jobs ==> r == Updated([], Some(JobMissing))
    ensures r.error != Some(InvalidState)
    ensures job.meta.name in jobs && r.error.Some? ==> r.error == Some(OperationFailed)
    ensures |r.patches| == (if job.meta.name in jobs && jobs[job.meta.name].spec.state != state && copied then 1 else 0)
    ensures forall p | p in r.patches :: p.name == jobs[job.meta.name].meta.name && p.payload.spec.state == state
  {
    var applied := Apply(NewCommand(job, state), jobs, copied, next);
    Updated(applied.patches, ProcessStatus(applied.command.status))
  }

  /**
   Asking for the state the stored Job already has issues no patch and is
   reported as success, whatever the deep copy and the cluster would do.
   */
  lemma UpdateStateIdempotent(jobs: map<string, Job>, job: Job, copied: bool, next: Job)
    requires job.meta.name in jobs
    ensures UpdateState(jobs, job, jobs[job.meta.name].spec.state, copied, next) == Updated([], None)
  {
  }

  /**
   A real transition issues exactly one patch (when the copy succeeds) and
   succeeds exactly when the observed Job reached the target state.
   */
  lemma UpdateStateTransition(jobs: map<string, Job>, job: Job, state: JobState, next: Job)
    requires job.meta.name in jobs && jobs[job.meta.name].spec.state != state
    ensures var r := UpdateState(jobs, job, state, true, next);
            && |r.patches| == 1
            && r.patches[0].payload == WithState(jobs[job.meta.name], state)
            && (r.error.None? <==> next.spec.state == state)
            && (r.error.Some? ==> r.error.value == OperationFailed)
  {
  }
}

=== FILE: jobfactory.dfy ===
/**
 Builds the state patch the coordinator sends for a Job: a copy of the Job with
 only its spec state replaced, addressed to the Job's own namespace and name.
 */
module JobFactory {

  import opened Wrappers
  import opened JobSpecs
  import opened Resources
  import opened Commons

  const JobPluralName: string := "cnpjobs"
  const JobCrdName: string := JobPluralName + "." + CrdGroup

  lemma JobCrdNameValue()
    ensures JobCrdName == "cnpjobs.cnp.ibm.com"
  {
  }

  /** A patch request: the target namespace and name, and the full replacement payload. */
  datatype Patch = Patch(namespace: string, name: string, payload: Job)

  /** The Job with its spec state replaced and everything else kept. */
  function WithState(job: Job, state: JobState): Job
  {
    job.(spec := job.spec.(state := state))
  }

  /**
   `copied` says whether the deep copy of the Job succeeded; when it does not,
   no patch is issued.
   */
  function Update(job: Job, state: JobState, copied: bool): (r: Option<Patch>)
    ensures r.Some? <==> copied
    ensures r.Some? ==> r.value.namespace == job.meta.namespace && r.value.name == job.meta.name
    ensures r.Some? ==> r.value.payload.spec.state == state
    ensures r.Some? ==> r.value.payload.meta == job.meta
    ensures r.Some? ==> r.value.payload.spec.desired == job.spec.desired
    ensures r.Some? ==> r.value.payload.spec.image == job.spec.image
    ensures r.Some? ==> r.value.payload.spec.args == job.spec.args
  {
    if copied then Some(Patch(job.meta.namespace, job.meta.name, WithState(job, state))) else None
  }

  /**
   The payload differs from the original Job in the state alone: putting the
   original state back gives the original Job, and the payload equals the
   original exactly when the requested state is the current one.
   */
  lemma UpdateOnlyChangesState(job: Job, state: JobState)
    ensures WithState(Update(job, state, true).value.payload, job.spec.state) == job
    ensures Update(job, state, true).value.payload == job <==> state == job.spec.state
  {
  }
}

=== FILE: jobspecs.dfy ===
/**
 The declared intent of a Job: the state-machine state, the desired pod count,
 the container image and its arguments.
 */
module JobSpecs {

  import opened Wrappers

  /** The Job state machine, in transition order. */
  datatype JobState = Undefined | PodCreation | Ready

  /** Java's 32-bit `int`. */
  type Int32 = x: int | -0x8000_0000 <= x <= 0x7fff_ffff

  const MaxInt32: int := 0x7fff_ffff

  /** Two's complement wrap-around of a mathematical integer into 32 bits. */
  function Wrap32(x: int): (r: Int32)
    ensures (r - x) % 0x1_0000_0000 == 0
    ensures -0x8000_0000 <= x <= 0x7fff_ffff ==> r == x
  {
    (x + 0x8000_0000) % 0x1_0000_0000 - 0x8000_0000
  }

  /** `image` and `args` are Java references that a default spec leaves null. */
  datatype JobSpec = JobSpec(state: JobState, desired: Int32, image: Option<string>, args: Option<seq<string>>)

  /** The no-argument constructor. */
  function DefaultSpec(): (s: JobSpec)
    ensures s.state == Undefined && s.desired == 0
    ensures s.image.None? && s.args.None?
  {
    JobSpec(Undefined, 0, None, None)
  }

  /**
   The copy constructor. It copies `args` into a new list, so a null `args`
   would fail; the copy is equal to the original in every field.
   */
  function CopySpec(s: JobSpec): (c: JobSpec)
    requires s.args.Some?
    ensures c == s
  {
    JobSpec(s.state, s.desired, s.image, Some(s.args.value[..]))
  }
}

=== FILE: podfactory.dfy ===
/**
 Builds the worker Pods of a Job: a name that no stored Pod uses, the two
 labels that correlate the Pod to its Job, a controlling owner reference to the
 Job, and a single container running the Job's image and arguments.
 */
module PodFactory {

  import opened Wrappers
  import opened Resources
  import opened Commons

  /** A create request: the namespace it is sent to and the Pod payload. */
  datatype Creation = Creation(namespace: string, pod: Pod)

  /** The names carried by the stored Pods (not the store's keys). */
  function PodNames(pods: map<string, Pod>): set<string>
  {
    set p | p in pods.Values :: p.meta.name
  }

  function IsUnique(pods: map<string, Pod>, name: string): (r: bool)
    ensures r <==> name !in PodNames(pods)
  {
    forall p | p in pods.Values :: p.meta.name != name
  }

  /** The candidate name for one random suffix. */
  function PodName(job: Job, suffix: string): string
  {
    job.meta.name + "-" + suffix
  }

  /** The i-th suffix gives the first unique candidate. */
  predicate FirstUniqueAt(pods: map<string, Pod>, job: Job, suffixes: seq<string>, i: int)
  {
    && 0 <= i < |suffixes|
    && IsUnique(pods, PodName(job, suffixes[i]))
    && forall j | 0 <= j < i :: !IsUnique(pods, PodName(job, suffixes[j]))
  }

  /**
   Tries the suffixes in order, as the source draws random ones, and returns the
   first candidate no stored Pod is named; None when every suffix is taken.
   */
  method GetUniquePodName(pods: map<string, Pod>, job: Job, suffixes: seq<string>) returns (name: Option<string>)
    ensures name.Some? ==> IsUnique(pods, name.value)
    ensures name.Some? ==> exists i :: FirstUniqueAt(pods, job, suffixes, i) && name.value == PodName(job, suffixes[i])
    ensures name.Some? ==> |name.value| > |job.meta.name| && name.value[..|job.meta.name| + 1] == job.meta.name + "-"
    ensures name.None? <==> forall i | 0 <= i < |suffixes| :: !IsUnique(pods, PodName(job, suffixes[i]))
  {
    var i := 0;
    while i < |suffixes|
      invariant 0 <= i <= |suffixes|
      invariant forall j | 0 <= j < i :: !IsUnique(pods, PodName(job, suffixes[j]))
    {
      var candidate := PodName(job, suffixes[i]);
      if IsUnique(pods, candidate) {
        assert FirstUniqueAt(pods, job, suffixes, i);
        assert candidate[..|job.meta.name| + 1] == job.meta.name + "-";
        return Some(candidate);
      }
      i := i + 1;
    }
    return None;
  }

  /** The owner reference a Pod must carry so that it is collected with its Job. */
  predicate ControlledBy(pod: Pod, job: Job)
  {
    && |pod.meta.ownerReferences| == 1
    && var o := pod.meta.ownerReferences[0];
    && o.apiVersion == ApiVersion
    && o.kind == "Job"
    && o.name == job.meta.name
    && o.uid == job.meta.uid
    && o.controller
    && o.blockOwnerDeletion
  }

  /** The Pod payload for one worker of `job`, named `name`. */
  function BuildPod(job: Job, name: string): (p: Pod)
    ensures p.meta.name == name && p.meta.namespace == job.meta.namespace
    ensures Label(p.meta, JobLabelKey) == Some(job.meta.name)
    ensures Label(p.meta, AppLabelKey) == Some(AppLabelValue)
    ensures p.meta.labels.Keys == {AppLabelKey, JobLabelKey} && |p.meta.labels| == 2
    ensures ControlledBy(p, job)
    ensures |p.spec.containers| == 1
    ensures p.spec.containers[0].name == "main"
    ensures p.spec.containers[0].image == job.spec.image
    ensures p.spec.containers[0].command == job.spec.args
    ensures p.spec.restartPolicy == "Never"
  {
    var container := Container("main", job.spec.image, job.spec.args);
    var spec := PodSpec([container], "Never");
    var owner := OwnerReference(CrdGroup + ['/'] + CrdVersion, "Job", job.meta.name, job.meta.uid, true, true);
    var labels := map[AppLabelKey := AppLabelValue, JobLabelKey := job.meta.name];
    LabelKeysDistinct();
    // The pod's own uid is left unset, written as ""; the API server assigns it.
    var meta := ObjectMeta(name, job.meta.namespace, "", labels, [owner]);
    Pod(meta, spec)
  }

  /**
   Creates one worker Pod for `job` in the Job's namespace, under the first
   unique candidate name; nothing is created when no suffix yields one.
   */
  method Add(pods: map<string, Pod>, job: Job, suffixes: seq<string>) returns (created: Option<Creation>)
    ensures created.Some? ==> created.value.namespace == job.meta.namespace
    ensures created.Some? ==> created.value.pod.meta.namespace == job.meta.namespace
    ensures created.Some? ==> IsUnique(pods, created.value.pod.meta.name)
    ensures created.Some? ==> Label(created.value.pod.meta, JobLabelKey) == Some(job.meta.name)
    ensures created.Some? ==> ControlledBy(created.value.pod, job)
    ensures created.Some? ==>
              exists i :: FirstUniqueAt(pods, job, suffixes, i) && created.value.pod == BuildPod(job, PodName(job, suffixes[i]))
    ensures created.None? <==> forall i | 0 <= i < |suffixes| :: !IsUnique(pods, PodName(job, suffixes[i]))
  {
    var name := GetUniquePodName(pods, job, suffixes);
    if name.None? {
      return None;
    }
    var pod := BuildPod(job, name.value);
    return Some(Creation(job.meta.namespace, pod));
  }
}

=== FILE: resources.dfy ===
/** The two resource kinds the controller watches, and their change events. */
module Resources {

  import opened Wrappers
  import opened JobSpecs

  datatype OwnerReference = OwnerReference(
    apiVersion: string,
    kind: string,
    name: string,
    uid: string,
    controller: bool,
    blockOwnerDeletion: bool)

  datatype ObjectMeta = ObjectMeta(
    name: string,
    namespace: string,
    uid: string,
    labels: map<string, string>,
    ownerReferences: seq<OwnerReference>)

  /** The custom Job resource. */
  datatype Job = Job(meta: ObjectMeta, spec: JobSpec)

  datatype Container = Container(name: string, image: Option<string>, command: Option<seq<string>>)

  datatype PodSpec = PodSpec(containers: seq<Container>, restartPolicy: string)

  datatype Pod = Pod(meta: ObjectMeta, spec: PodSpec)

  /** A watched resource: a Job or a Pod. */
  datatype Resource = JobResource(job: Job) | PodResource(pod: Pod)

  /** A change notification; a modification also carries the prior snapshot. */
  datatype Event<R> = Addition(cur: R) | Modification(pre: R, cur: R) | Deletion(cur: R)

  /** The value of a label, or None when the resource does not carry it. */
  function Label(meta: ObjectMeta, key: string): (r: Option<string>)
    ensures r.Some? <==> key in meta.labels
    ensures r.Some? ==> r.value == meta.labels[key]
  {
    if key in meta.labels then Some(meta.labels[key]) else None
  }

  /** A modification's two snapshots are of the same kind, as the dispatcher delivers them. */
  predicate WellFormed(e: Event<Resource>)
  {
    e.Modification? ==> e.pre.JobResource? == e.cur.JobResource?
  }
}

=== FILE: wrappers.dfy ===
/** Optional values, standing in for Java's `Optional` and nullable references. */
module Wrappers {

  datatype Option<+T> = None | Some(value: T)
}
